=== FILE: README.md ===
# cmtspeech_ofono_test loopback model

A Dafny model of the core of `cmtspeech_ofono_test`. This is the libcmtspeechdata
utility that loops modem downlink speech frames back into the uplink. Its call-server
status follows oFono's `org.ofono.AudioSettings` `Active` property, which it reads
off the D-Bus system bus.

The model is functional. The tool's mutable context (tracked bus watch, polled bus
descriptor, cached call-server status) is an immutable `Types.Ctx`. Every handler is
a pure function from a context and the libraries' answers to a new context plus a
trace. The trace is the ordered list of observable calls the tool makes (`Types.Call`):
`poll`, the pending check, buffer acquire/release, the payload copy, the control
event read, call-status forwarding, bus dispatch, watch handling, message pop/unref,
and stderr diagnostics. Calls that only query a library are inputs, not trace
entries: the protocol state, the state transition of an event, the dispatch status,
and a watch's descriptor and enabled flag. The results of `poll` and of the pending
check (its count and flags) are inputs too, while the calls themselves are traced.

Modules:

- `Types`: context, call trace, `Count` and `StatusCalls` projections.
- `Watch`: the three watch callbacks, and the invariant "no tracked watch implies
  descriptor -1".
- `CallStatus`: forwarding of one `Active` notification, and `Forwarded`, the
  reference definition of the genuine changes in a run of notifications.
- `Bus`: the message record, `test_handle_dbus_ofono` and `test_handle_dbus_message`
  (as written and corrected), and the pop/handle/unref drain loop.
- `Loopback`: `test_handle_cmtspeech_data`.
- `Control`: `test_handle_cmtspeech_control`, with `ReactionOf` as the reference table
  of intended reactions.
- `MainLoop`: one iteration of `test_mainloop` (`Step`, split into the channel phase
  and the bus phase) and the loop over a run of iterations (`RunLoop`).

## Model

| member | source | states |
|---|---|---|
| Watch.OnAdd | utils/cmtspeech_ofono_test.c:69-82 | the added watch becomes the tracked one with its own descriptor, whatever was tracked before; the call status is untouched; the invariant holds afterwards |
| Watch.OnRemove | utils/cmtspeech_ofono_test.c:84-94 | removing the tracked watch clears it and sets the descriptor to -1, so only the speech channel is polled; removing any other watch changes nothing; the invariant is preserved |
| Watch.OnToggle | utils/cmtspeech_ofono_test.c:96-110 | toggling the tracked watch keeps it tracked and switches the descriptor between the watch's own (enabled) and -1 (disabled); toggling another watch changes nothing; the invariant is preserved |
| Watch.ApplyAllPreservesInv | utils/cmtspeech_ofono_test.c:69-110 | any run of add/remove/toggle callbacks keeps "no tracked watch implies descriptor -1" and leaves the call status alone |
| Watch.InitialInvariant | utils/cmtspeech_ofono_test.c:459-461 | from the context main sets up (no watch, descriptor -1), every run of callbacks yields a context that satisfies the invariant |
| Watch.PolledBusHasWatch | utils/cmtspeech_ofono_test.c:393-398 | under the invariant, two descriptors are polled exactly when the bus descriptor is non-negative, and then a watch is tracked |
| Watch.RemovedWatchStaysRemoved | utils/cmtspeech_ofono_test.c:84-110 | after the tracked watch is removed, no run of removes and toggles brings a bus descriptor back |
| CallStatus.Notify | utils/cmtspeech_ofono_test.c:211-219 | the cache takes the notified value; the library is told exactly when the value differs from the cache |
| CallStatus.NotifyIdempotent | utils/cmtspeech_ofono_test.c:211-219 | a notification equal to the cache makes no call; the same notification twice makes at most one call |
| CallStatus.ForwardedAlternates | utils/cmtspeech_ofono_test.c:211-219 | consecutive forwarded values always differ, the first differs from the starting cache, and the last equals the final cache |
| CallStatus.DuplicateIgnored | utils/cmtspeech_ofono_test.c:211-219 | duplicating a notification anywhere in a run changes neither the forwarded calls nor the final cache |
| Bus.HandleOfono | utils/cmtspeech_ofono_test.c:187-233 | the corrected handler returns true iff the message is a well-formed Active notification (`ActiveValue`), and the cache then takes its value, otherwise stays |
| Bus.HandleMessage | utils/cmtspeech_ofono_test.c:236-252 | the corrected dispatcher parses iff `ActiveValue` holds a value, and the cache follows it |
| Bus.HandleOfonoAsWritten | utils/cmtspeech_ofono_test.c:187-233 | the handler as written completes iff the message is not the AudioSettings PropertyChanged signal or carries a leading string argument |
| Bus.MissingPropertyIsUndefined | utils/cmtspeech_ofono_test.c:193-199 | a PropertyChanged signal on AudioSettings with no arguments reaches strcmp with a NULL property; the corrected handler reports a parse error instead |
| Bus.OfonoAgreesWhenDefined | utils/cmtspeech_ofono_test.c:187-233 | wherever the as-written handler is defined, it agrees with the corrected one |
| Bus.OfonoParse | utils/cmtspeech_ofono_test.c:187-233 | the result is true iff the message is a well-formed Active notification (the reference reading `ActiveValue`); the cache then takes its value, otherwise stays; a call is forwarded iff the value is new; an unknown property is reported iff the name is not "Active"; a parse error is reported iff the property name is missing or the "Active" value is not a boolean variant, and an unparsed message writes at most one diagnostic; other messages make no call |
| Bus.HandleMessageAsWritten | utils/cmtspeech_ofono_test.c:236-252 | the dispatcher as written is defined iff the message has an interface and is not an AudioSettings PropertyChanged signal without a leading string; a message without an interface reaches strstr with NULL |
| Bus.MissingInterfaceIsUndefined | utils/cmtspeech_ofono_test.c:238-244 | a method call without an interface header is undefined as written and ignored by the corrected dispatcher |
| Bus.MessageAgreesWhenDefined | utils/cmtspeech_ofono_test.c:236-252 | wherever the as-written dispatcher is defined, it agrees with the corrected one |
| Bus.MessageParse | utils/cmtspeech_ofono_test.c:236-252 | the "org.ofono." substring filter loses no well-formed notification: a message parses iff `ActiveValue` holds a value, the cache follows it, and a call is forwarded iff the value is new |
| Bus.HandleAll | utils/cmtspeech_ofono_test.c:431-437 | handling the queued messages in order forwards exactly `Forwarded` of their notified values and leaves the cache at the last value notified |
| Bus.Drain | utils/cmtspeech_ofono_test.c:431-437 | the pop/handle/unref loop forwards exactly the genuine status changes among the notifications, and the cache ends at the last notified value |
| Bus.DrainShape | utils/cmtspeech_ofono_test.c:431-437 | every queued message is popped and unreferenced exactly once, one more pop finds the queue empty and ends the loop, and only message calls are made |
| Loopback.HandleData | utils/cmtspeech_ofono_test.c:317-336 | the downlink is acquired first; an uplink is handed back iff one was acquired in full duplex; it keeps its size, carries the downlink payload over its own tail when it had room, and is untouched otherwise |
| Loopback.LoopbackPairing | utils/cmtspeech_ofono_test.c:317-336 | a failed downlink acquire makes no other call; every successful acquire is released exactly once; the uplink is acquired only on a held downlink in full duplex |
| Loopback.LoopbackOrdering | utils/cmtspeech_ofono_test.c:317-336 | the downlink is acquired first and released last, and the uplink is released just before it |
| Loopback.LoopbackCopy | utils/cmtspeech_ofono_test.c:323-330 | the whole downlink payload is copied iff the uplink has room for it, otherwise nothing is; the uplink keeps its size and its tail, and its whole payload on a refused copy |
| Loopback.CopyWithinUplink | utils/cmtspeech_ofono_test.c:326-329 | every copy's length is the downlink size and at most the uplink size |
| Loopback.GateClosedNoLoopback | utils/cmtspeech_ofono_test.c:322-324 | outside full duplex no uplink call and no copy is made |
| Loopback.OversizedFrameDropped | utils/cmtspeech_ofono_test.c:326-329 | a frame larger than the uplink is released without any bytes copied, not truncated |
| Loopback.FullDuplexFrameLooped | utils/cmtspeech_ofono_test.c:322-330 | a 160-byte frame into a 320-byte uplink in full duplex copies 160 bytes and keeps the uplink's tail |
| Loopback.HalfDuplexFrameNotLooped | utils/cmtspeech_ofono_test.c:322-334 | a downlink frame of any size outside full duplex is only acquired and released, whatever uplink the library would offer, and no uplink is handed back |
| Control.HandleControl | utils/cmtspeech_ofono_test.c:338-377 | one event is read first; the context is unchanged and 0 is returned; an error is reported iff the reference table says so (invalid transition), the timing warning iff it says warn (codes 6 and 7, which fall through to the no-op group), nothing else for the no-op codes, and the assert fires iff the code is unlisted, with nothing written before it |
| Control.ControlMakesNoOtherCalls | utils/cmtspeech_ofono_test.c:338-377 | the control handler only reads the event and possibly writes one diagnostic |
| MainLoop.ChannelPhase | utils/cmtspeech_ofono_test.c:407-421 | channel handling starts with the pending check and aborts iff a control event was reported pending and its transition is unlisted |
| MainLoop.ChannelPhaseDispatch | utils/cmtspeech_ofono_test.c:411-419 | data is handled iff pending with the downlink flag, and control iff pending with the control flag |
| MainLoop.ChannelPhaseKinds | utils/cmtspeech_ofono_test.c:407-421 | channel handling makes only channel calls, with data before control |
| MainLoop.BusPhase | utils/cmtspeech_ofono_test.c:423-439 | after bus handling, the watch and descriptor are those left by the callbacks raised during dispatch and then by the later ones; the invariant still holds, and the cache ends at the last notified value |
| MainLoop.BusPhaseCalls | utils/cmtspeech_ofono_test.c:423-439 | bus handling forwards exactly the genuine status changes and makes only bus calls; `dbus_watch_handle` gets the watch tracked after dispatch (line 429 reads it after line 427), which is NULL exactly when the dispatch callbacks left no watch |
| MainLoop.Wake | utils/cmtspeech_ofono_test.c:405-440 | after a positive poll the invariant is kept and the loop does not return; `dbus_watch_handle` gets NULL exactly when the bus is handled and the dispatch callbacks removed the tracked watch, so never when no remove arrives during dispatch; the context after the wake is the one bus handling leaves when the bus is handled and is unchanged otherwise; the call status changes forwarded in the wake are exactly those of the bus messages, and none when the bus is not handled |
| MainLoop.WakeOrder | utils/cmtspeech_ofono_test.c:405-440 | within one wake, data precedes control and every channel call precedes every bus call |
| MainLoop.WakeGates | utils/cmtspeech_ofono_test.c:405-440 | the channel is handled iff it was ready; bus calls happen only when the bus was polled and ready, and then on the watch tracked after dispatch; a polled, ready bus is handled unless the process aborted; the call status changes only through the bus |
| MainLoop.Step | utils/cmtspeech_ofono_test.c:391-444 | each iteration polls 2 descriptors iff the bus descriptor is non-negative, else 1; a failed poll returns -1 with nothing else done; a zero poll does nothing; the invariant is kept; `dbus_watch_handle` gets NULL exactly when the bus is handled and dispatch removed the tracked watch; the context changes only through bus handling, and the call status changes forwarded are exactly those of the bus messages of a positive poll with the bus handled |
| MainLoop.RemoveThenSinglePoll | utils/cmtspeech_ofono_test.c:84-94 | when the callbacks arriving during bus handling end by removing the watch tracked at that moment, the next iteration polls the speech channel alone |
| MainLoop.StepOrder | utils/cmtspeech_ofono_test.c:391-444 | within one iteration, data precedes control and the channel precedes the bus |
| MainLoop.StepGates | utils/cmtspeech_ofono_test.c:391-444 | the channel is handled iff poll reported it; the bus only when it was in the poll set and reported, and then on the watch tracked after dispatch; the call status changes only then |
| MainLoop.RunLoop | utils/cmtspeech_ofono_test.c:390-447 | the loop returns 0 only after an exit request and -1 only after a failed poll; an exit request before an iteration returns at once; the first pass, unless an exit request precedes it, is one `Step` whose calls begin the run's calls, and if that step returns or aborts the loop ends with its result; the invariant holds throughout; unless a watch is removed during some dispatch, `dbus_watch_handle` never gets NULL |
| MainLoop.InitialRunKeepsInvariant | utils/cmtspeech_ofono_test.c:459-461 | from the initial context, every run keeps the invariant, and `dbus_watch_handle` never gets NULL unless a watch is removed during some dispatch |
| MainLoop.DispatchRemovalHandsNull | utils/cmtspeech_ofono_test.c:426-429 | a remove callback for the tracked watch raised inside `dbus_connection_dispatch` makes the tool call `dbus_watch_handle` with NULL |
| MainLoop.DispatchKeepsTrackedWatch | utils/cmtspeech_ofono_test.c:426-429 | a dispatch that raises no remove callback leaves a watch tracked for line 429 |
| Watch.NoRemoveKeepsWatch | utils/cmtspeech_ofono_test.c:69-110 | a run of add and toggle callbacks never leaves the context without a tracked watch |

## Left out

- D-Bus connection setup, match rules and release (lines 117-185) are library plumbing with no decision logic.
- The SIGINT handler and signal setup (lines 254-277) are not modelled. The exit request is an input to each iteration.
- Option parsing and usage text (lines 279-315) are not modelled, and neither is the library initialisation in `main`.
- The DEBUG/INFO verbosity gating of printouts is not modelled. The timing-update warning is gated by INFO in the source, but the model always records it as a diagnostic.
- `priv_free_data_cb` is a no-op and is not modelled.
- The initial `assert(fds[cmt].fd >= 0)` on the speech descriptor (line 388) is not modelled: the descriptor comes from the library.
- The libraries' internals are not modelled. Their answers are inputs: protocol state, event classification, pending flags, dispatch status, watch descriptor and enabled flag, buffer acquisition, and the messages queued.
- Watch callbacks raised inside `dbus_watch_handle`, `dbus_connection_pop_message` and `dbus_message_unref` are applied as one batch before the messages are handled; the order does not matter, since message handling never reads the watch state and callbacks never touch the call status. This is exact: the tool reads the watch state again only when it builds the next poll set. Whether libdbus tolerates the NULL watch that `dbus_watch_handle` can receive after a remove during dispatch is not part of this model.
- Loopback.HandleData: the library's protocol states are collapsed to full duplex versus any other state, the only distinction the handler makes. The buffer's `pcount` is the payload length, and the frame's `count` header field is not modelled.
- Control.HandleControl: `assert(0)` on an unlisted transition is modelled as an abort outcome, not as process termination (under NDEBUG it would be a no-op).
- The return value of `test_handle_dbus_message` is always 0 and is dropped; `test_handle_dbus_ofono`'s `parse_ok` is `Handled.parsed`, `test_handle_cmtspeech_control`'s 0 is `ControlResult.ret`, and `test_mainloop`'s result is the `Returned` code.
- Bus.HandleAll, Bus.Drain, MainLoop.BusPhase, Wake, Step, RunLoop: these handle messages with the corrected `HandleMessage` (both Findings fixed), so they match the source only for queues where `HandleMessageAsWritten` is `Defined` for every message (see `Bus.MessageAgreesWhenDefined`); a queue holding either Findings input is undefined behaviour in the source.
- Loopback.LoopbackCopy: the copy is all or nothing (`ulbuf->pcount >= dlbuf->pcount`, line 327), never the smaller of the two sizes.
- Loopback.HandleData: the data handler never reads `call_server_status`; only the protocol state gates the copy.

## Findings

| source | as written | input that shows it | evidently intended | confidence | as-written member | corrected member |
|---|---|---|---|---|---|---|
| utils/cmtspeech_ofono_test.c:193-199 | when `dbus_message_get_args` fails, `property` stays NULL and is passed to `strcmp` | a `PropertyChanged` signal on `org.ofono.AudioSettings` with no arguments (any bus client can emit it) | report a parse error and leave the status alone | not executed | Bus.HandleOfonoAsWritten, Bus.MissingPropertyIsUndefined | Bus.HandleOfono, Bus.OfonoParse |
| utils/cmtspeech_ofono_test.c:238-244 | `dbus_message_get_interface` returns NULL for a message without an interface header, and that NULL is passed to `strstr` | a method call addressed to the tool with no interface, e.g. member `Ping` | ignore the message like any non-oFono message | not executed | Bus.HandleMessageAsWritten, Bus.MissingInterfaceIsUndefined | Bus.HandleMessage, Bus.MessageParse |

=== FILE: bus.dfy ===
/** Handling of messages popped from the bus connection: the
    org.ofono.AudioSettings "Active" property change that drives the call
    status, and the drain loop that handles every queued message.
    A message is an abstract record of what the libdbus accessors report:
    its type, interface, member and typed arguments.
 */
module Bus {
  import opened Types
  import opened CallStatus

  datatype MsgType = Signal | MethodCall | MethodReturn | ErrorReply

  /** A message argument; `OtherArg` stands for every type code the tool
      does not inspect. */
  datatype Arg = Str(s: string) | Boolean(b: bool) | Variant(inner: Arg) | OtherArg(code: char)

  datatype Msg = Msg(kind: MsgType, iface: Option<string>, member: Option<string>, args: seq<Arg>)

  const AudioSettings: string := "org.ofono.AudioSettings"
  const PropertyChanged: string := "PropertyChanged"
  const ActiveProperty: string := "Active"
  const OfonoPrefix: string := "org.ofono."

  /** Result of handling one message: whether it parsed as a call-status
      notification, the new cached status and the calls made. */
  datatype Handled = Handled(parsed: bool, active: bool, trace: seq<Call>)

  /** Result of code that may reach undefined behaviour (a NULL string
      handed to the C library): either a defined value, or none at all. */
  datatype Behaviour<T> = Defined(value: T) | UndefinedBehaviour

  /** `sub` occurs somewhere in `s` (the test strstr makes). */
  predicate Contains(s: string, sub: string)
  {
    exists i :: 0 <= i <= |s| - |sub| && OccursAt(s, sub, i)
  }

  predicate OccursAt(s: string, sub: string, i: int)
    requires 0 <= i <= |s| - |sub|
  {
    s[i..i + |sub|] == sub
  }

  /** The calls message handling can make: queue and refcount calls,
      call-status forwarding, and the two parse diagnostics. */
  predicate IsMessageCall(x: Call)
  {
    x == PopMessage || x == MessageUnref || x.CallStatusChange?
    || x == Diag(ParseError) || x == Diag(UnsupportedProperty)
  }

  /** Reference reading of a well-formed notification: a PropertyChanged
      signal on AudioSettings whose arguments start with the string "Active"
      and a variant holding a boolean. Anything else carries no value. */
  function ActiveValue(m: Msg): Option<bool>
  {
    if m.kind == Signal && m.iface == Some(AudioSettings) && m.member == Some(PropertyChanged)
       && |m.args| >= 2 && m.args[0] == Str(ActiveProperty)
       && m.args[1].Variant? && m.args[1].inner.Boolean?
    then Some(m.args[1].inner.b)
    else None
  }

  /** dbus_message_is_signal for the one signal the tool subscribes to. */
  predicate IsAudioSettingsChange(m: Msg)
  {
    m.kind == Signal && m.iface == Some(AudioSettings) && m.member == Some(PropertyChanged)
  }

  /** dbus_message_get_args for one leading string: the property name, or
      nothing when the first argument is missing or not a string. */
  function PropertyName(m: Msg): Option<string>
  {
    if |m.args| > 0 && m.args[0].Str? then Some(m.args[0].s) else None
  }

  /** The type probe after skipping the property name: the boolean inside a
      variant second argument, if that is what is there. */
  function VariantBool(m: Msg): Option<bool>
  {
    if |m.args| >= 2 && m.args[1].Variant? && m.args[1].inner.Boolean?
    then Some(m.args[1].inner.b) else None
  }

  /** test_handle_dbus_ofono as written: with no leading string argument
      the property string stays NULL and reaches strcmp. */
  function HandleOfonoAsWritten(active: bool, m: Msg): (r: Behaviour<Handled>)
    ensures r.Defined? <==> !IsAudioSettingsChange(m) || PropertyName(m).Some?
  {
    if !IsAudioSettingsChange(m) then Defined(Handled(false, active, []))
    else match PropertyName(m)
      case None => UndefinedBehaviour
      case Some(p) => Defined(PropertyHandler(active, m, p))
  }

  /** The part of test_handle_dbus_ofono after the property name is known. */
  function PropertyHandler(active: bool, m: Msg, p: string): Handled
  {
    if p == ActiveProperty then
      match VariantBool(m)
      case Some(state) =>
        var t := Notify(active, state);
        Handled(true, t.active, t.trace)
      case None => Handled(false, active, [Diag(ParseError)])
    else Handled(false, active, [Diag(UnsupportedProperty)])
  }

  /** test_handle_dbus_ofono with the missing property reported as a parse
      error instead of reaching strcmp: parses exactly the well-formed
      notifications, forwards only genuine changes, and otherwise leaves
      the cached status alone. */
  function HandleOfono(active: bool, m: Msg): (r: Handled)
    ensures r.parsed <==> ActiveValue(m).Some?
    ensures r.active == (if r.parsed then ActiveValue(m).value else active)
  {
    if !IsAudioSettingsChange(m) then Handled(false, active, [])
    else match PropertyName(m)
      case None => Handled(false, active, [Diag(ParseError)])
      case Some(p) => PropertyHandler(active, m, p)
  }

  /** The oFono handler parses exactly the well-formed notifications,
      forwards a notified value only when it differs from the cache, and
      otherwise leaves the cache alone; an unknown property is reported,
      and other messages cause no call at all. */
  lemma OfonoParse(active: bool, m: Msg)
    ensures var r := HandleOfono(active, m);
            (r.parsed <==> ActiveValue(m).Some?) &&
            (r.parsed ==> r.active == ActiveValue(m).value) &&
            (!r.parsed ==> r.active == active) &&
            StatusCalls(r.trace) == (if r.parsed && r.active != active then [r.active] else []) &&
            (Diag(UnsupportedProperty) in r.trace <==>
               IsAudioSettingsChange(m) && PropertyName(m).Some? && PropertyName(m).value != ActiveProperty) &&
            (Diag(ParseError) in r.trace <==>
               IsAudioSettingsChange(m) &&
               (PropertyName(m).None? || (PropertyName(m).value == ActiveProperty && VariantBool(m).None?))) &&
            (!r.parsed ==> |r.trace| <= 1) &&
            (!IsAudioSettingsChange(m) ==> r.trace == []) &&
            HandlerCalls(r.trace)
  {
  }

  /** Wherever the as-written handler is defined it agrees with the
      corrected one. */
  lemma OfonoAgreesWhenDefined(active: bool, m: Msg)
    ensures HandleOfonoAsWritten(active, m).Defined? ==>
              HandleOfonoAsWritten(active, m).value == HandleOfono(active, m)
  {
  }

  /** The input that reaches strcmp with NULL: a PropertyChanged signal on
      AudioSettings without arguments, which the subscription admits from
      any sender on the bus. */
  lemma MissingPropertyIsUndefined()
    ensures HandleOfonoAsWritten(false, Msg(Signal, Some(AudioSettings), Some(PropertyChanged), [])).UndefinedBehaviour?
    ensures HandleOfono(false, Msg(Signal, Some(AudioSettings), Some(PropertyChanged), [])) == Handled(false, false, [Diag(ParseError)])
  {
  }

  /** test_handle_dbus_message as written: strstr on the interface, which
      is NULL for a message without an interface header. */
  function HandleMessageAsWritten(active: bool, m: Msg): (r: Behaviour<Handled>)
    ensures m.iface.None? ==> r.UndefinedBehaviour?
    ensures r.Defined? <==> m.iface.Some? && (!IsAudioSettingsChange(m) || PropertyName(m).Some?)
  {
    assert IsAudioSettingsChange(m) ==> OccursAt(m.iface.value, OfonoPrefix, 0);
    match m.iface
    case None => UndefinedBehaviour
    case Some(i) =>
      if Contains(i, OfonoPrefix) then HandleOfonoAsWritten(active, m)
      else Defined(Handled(false, active, []))
  }

  /** test_handle_dbus_message with an interface-less message ignored like
      any other non-oFono message. Only messages whose interface contains
      "org.ofono." reach the oFono handler; the result code is always 0 and
      so is not modelled. */
  function HandleMessage(active: bool, m: Msg): (r: Handled)
    ensures r.parsed <==> ActiveValue(m).Some?
    ensures r.active == (if r.parsed then ActiveValue(m).value else active)
  {
    assert IsAudioSettingsChange(m) ==> OccursAt(m.iface.value, OfonoPrefix, 0);
    match m.iface
    case None => Handled(false, active, [])
    case Some(i) =>
      if Contains(i, OfonoPrefix) then HandleOfono(active, m) else Handled(false, active, [])
  }

  /** The interface filter loses no notification: a message is parsed iff
      it is a well-formed notification, the cache takes its value, and a
      call is forwarded iff that value is new. */
  lemma MessageParse(active: bool, m: Msg)
    ensures var r := HandleMessage(active, m);
            (r.parsed <==> ActiveValue(m).Some?) &&
            r.active == (if r.parsed then ActiveValue(m).value else active) &&
            StatusCalls(r.trace) == (if r.active != active then [r.active] else []) &&
            (m.iface.None? ==> r == Handled(false, active, [])) &&
            HandlerCalls(r.trace)
  {
    OfonoParse(active, m);
    match m.iface
    case None =>
    case Some(i) =>
      if !Contains(i, OfonoPrefix) {
        assert !IsAudioSettingsChange(m) by {
          if IsAudioSettingsChange(m) {
            assert OccursAt(i, OfonoPrefix, 0);
          }
        }
      }
  }

  lemma MessageAgreesWhenDefined(active: bool, m: Msg)
    ensures HandleMessageAsWritten(active, m).Defined? ==>
              HandleMessageAsWritten(active, m).value == HandleMessage(active, m)
  {
    if m.iface.Some? && !Contains(m.iface.value, OfonoPrefix) {
      assert !IsAudioSettingsChange(m) by {
        if IsAudioSettingsChange(m) {
          assert OccursAt(m.iface.value, OfonoPrefix, 0);
        }
      }
    }
  }

  /** The input that reaches strstr with NULL: a method call addressed to
      the tool with no interface header. */
  lemma MissingInterfaceIsUndefined()
    ensures HandleMessageAsWritten(false, Msg(MethodCall, None, Some("Ping"), [])).UndefinedBehaviour?
    ensures HandleMessage(false, Msg(MethodCall, None, Some("Ping"), [])) == Handled(false, false, [])
  {
  }

  /** The booleans carried by the well-formed notifications in `ms`, in order. */
  function Notified(ms: seq<Msg>): seq<bool>
    decreases |ms|
  {
    if |ms| == 0 then []
    else (match ActiveValue(ms[0]) case Some(b) => [b] case None => []) + Notified(ms[1..])
  }

  /** The calls a single message handler can make: message calls other
      than the queue's own pop and unref. */
  predicate HandlerCalls(t: seq<Call>)
  {
    AllMessageCalls(t) && PopMessage !in t && MessageUnref !in t
  }

  predicate AllMessageCalls(t: seq<Call>)
  {
    forall i :: 0 <= i < |t| ==> IsMessageCall(t[i])
  }

  datatype HandledAll = HandledAll(active: bool, traces: seq<seq<Call>>)

  /** The handlers' calls, message after message. */
  function Flatten(ts: seq<seq<Call>>): seq<Call>
    decreases |ts|
  {
    if |ts| == 0 then [] else ts[0] + Flatten(ts[1..])
  }

  /** Each queued message handled in turn against the cache the previous
      one left: the calls forwarded are exactly the genuine changes among
      the notifications, and the cache ends at the last notified value. */
  function HandleAll(active: bool, ms: seq<Msg>): (r: HandledAll)
    ensures |r.traces| == |ms|
    ensures StatusCalls(Flatten(r.traces)) == Forwarded(active, Notified(ms))
    ensures r.active == Final(active, Notified(ms))
    ensures forall i :: 0 <= i < |r.traces| ==> HandlerCalls(r.traces[i])
    decreases |ms|
  {
    if |ms| == 0 then HandledAll(active, [])
    else
      var h := HandleMessage(active, ms[0]);
      var rest := HandleAll(h.active, ms[1..]);
      var ts := [h.trace] + rest.traces;
      assert ts[1..] == rest.traces;
      assert Flatten(ts) == h.trace + Flatten(rest.traces);
      StatusCallsAppend(h.trace, Flatten(rest.traces));
      NotifiedStep(active, ms);
      MessageParse(active, ms[0]);
      HandledAll(rest.active, ts)
  }

  /** The pop/handle/unref framing of the handlers' calls, ending with the
      pop that finds the queue empty. */
  function Frame(ts: seq<seq<Call>>): seq<Call>
    decreases |ts|
  {
    if |ts| == 0 then [PopMessage]
    else [PopMessage] + ts[0] + [MessageUnref] + Frame(ts[1..])
  }

  lemma {:induction false} FrameStatusCalls(ts: seq<seq<Call>>)
    ensures StatusCalls(Frame(ts)) == StatusCalls(Flatten(ts))
    decreases |ts|
  {
    if |ts| > 0 {
      FrameStatusCalls(ts[1..]);
      var a := [PopMessage] + ts[0];
      StatusCallsAppend(a + [MessageUnref], Frame(ts[1..]));
      StatusCallsAppend(a, [MessageUnref]);
      StatusCallsAppend([PopMessage], ts[0]);
      StatusCallsAppend(ts[0], Flatten(ts[1..]));
    }
  }

  lemma {:induction false} FrameCounts(ts: seq<seq<Call>>)
    requires forall i :: 0 <= i < |ts| ==> HandlerCalls(ts[i])
    ensures Count(Frame(ts), PopMessage) == |ts| + 1
    ensures Count(Frame(ts), MessageUnref) == |ts|
    decreases |ts|
  {
    if |ts| > 0 {
      FrameCounts(ts[1..]);
      assert HandlerCalls(ts[0]);
      var t := [PopMessage] + ts[0] + [MessageUnref];
      assert multiset(t + Frame(ts[1..])) == multiset([PopMessage]) + multiset(ts[0]) + multiset([MessageUnref]) + multiset(Frame(ts[1..]));
    }
  }

  lemma {:induction false} FrameMessageCalls(ts: seq<seq<Call>>)
    requires forall i :: 0 <= i < |ts| ==> HandlerCalls(ts[i])
    ensures AllMessageCalls(Frame(ts))
    ensures |Frame(ts)| > 0 && Frame(ts)[|Frame(ts)| - 1] == PopMessage
    decreases |ts|
  {
    if |ts| > 0 {
      FrameMessageCalls(ts[1..]);
      assert HandlerCalls(ts[0]);
      MessageCallsConcat([PopMessage], ts[0]);
      MessageCallsConcat([PopMessage] + ts[0], [MessageUnref]);
      MessageCallsConcat([PopMessage] + ts[0] + [MessageUnref], Frame(ts[1..]));
    }
  }

  lemma MessageCallsConcat(a: seq<Call>, b: seq<Call>)
    requires AllMessageCalls(a) && AllMessageCalls(b)
    ensures AllMessageCalls(a + b)
  {
    forall i | 0 <= i < |a + b|
      ensures IsMessageCall((a + b)[i])
    {
      if i >= |a| {
        assert (a + b)[i] == b[i - |a|];
      }
    }
  }

  datatype Drained = Drained(active: bool, trace: seq<Call>)

  /** The pop/handle/unref loop over the queued messages `ms`, ending with
      the pop that finds the queue empty: the calls forwarded are the
      genuine changes among the notifications, and the cache ends at the
      last notified value. */
  function Drain(active: bool, ms: seq<Msg>): (r: Drained)
    ensures StatusCalls(r.trace) == Forwarded(active, Notified(ms))
    ensures r.active == Final(active, Notified(ms))
  {
    var h := HandleAll(active, ms);
    FrameStatusCalls(h.traces);
    Drained(h.active, Frame(h.traces))
  }

  /** The drain's calls are the framing of the handlers' calls. */
  lemma DrainFrames(active: bool, ms: seq<Msg>)
    ensures var ts := HandleAll(active, ms).traces;
            Drain(active, ms).trace == Frame(ts) &&
            forall i :: 0 <= i < |ts| ==> HandlerCalls(ts[i])
    ensures |HandleAll(active, ms).traces| == |ms|
  {
  }

  /** Every queued message is popped and unreferenced once, and one more
      pop finds the queue empty. */
  lemma DrainCounts(active: bool, ms: seq<Msg>)
    ensures Count(Drain(active, ms).trace, PopMessage) == |ms| + 1
    ensures Count(Drain(active, ms).trace, MessageUnref) == |ms|
  {
    DrainFrames(active, ms);
    FrameCounts(HandleAll(active, ms).traces);
  }

  /** The drain ends with the pop that finds the queue empty and makes
      nothing but message calls. */
  lemma DrainCalls(active: bool, ms: seq<Msg>)
    ensures var t := Drain(active, ms).trace;
            |t| > 0 && t[|t| - 1] == PopMessage && AllMessageCalls(t)
  {
    DrainFrames(active, ms);
    FrameMessageCalls(HandleAll(active, ms).traces);
  }

  /** Every queued message is popped and unreferenced once, one more pop
      finds the queue empty, and nothing but message calls is made. */
  lemma DrainShape(active: bool, ms: seq<Msg>)
    ensures var t := Drain(active, ms).trace;
            Count(t, PopMessage) == |ms| + 1 && Count(t, MessageUnref) == |ms| &&
            |t| > 0 && t[|t| - 1] == PopMessage && AllMessageCalls(t)
  {
    DrainCounts(active, ms);
    DrainCalls(active, ms);
  }

  /** One step of the reference: the head message contributes its value. */
  lemma NotifiedStep(active: bool, ms: seq<Msg>)
    requires |ms| > 0
    ensures var h := HandleMessage(active, ms[0]);
            Forwarded(active, Notified(ms)) ==
              StatusCalls(h.trace) + Forwarded(h.active, Notified(ms[1..]))
    ensures Final(active, Notified(ms)) == Final(HandleMessage(active, ms[0]).active, Notified(ms[1..]))
  {
    var h := HandleMessage(active, ms[0]);
    var n := Notified(ms[1..]);
    MessageParse(active, ms[0]);
    match ActiveValue(ms[0])
    case None =>
      assert Notified(ms) == n;
    case Some(b) =>
      assert Notified(ms) == [b] + n;
      assert ([b] + n)[1..] == n;
  }
}

=== FILE: call_status.dfy ===
/** The cached call-server status and its forwarding into the speech
    library: a boolean "Active" notification is passed on only when it
    differs from the cache, and the cache then takes the new value.
 */
module CallStatus {
  import opened Types

  datatype Tracked = Tracked(active: bool, trace: seq<Call>)

  /** One boolean notification against cached status `cached`. */
  function Notify(cached: bool, state: bool): (r: Tracked)
    ensures r.active == state
    ensures state != cached ==> r.trace == [CallStatusChange(state)]
    ensures state == cached ==> r.trace == []
  {
    if state != cached then Tracked(state, [CallStatusChange(state)])
    else Tracked(cached, [])
  }

  /** Reference definition: the values forwarded for a run of notifications
      `vs` starting from cache `prev` are exactly the genuine changes. */
  function Forwarded(prev: bool, vs: seq<bool>): seq<bool>
    decreases |vs|
  {
    if |vs| == 0 then []
    else (if vs[0] != prev then [vs[0]] else []) + Forwarded(vs[0], vs[1..])
  }

  /** The cache after a run of notifications: the last value, if any. */
  function Final(prev: bool, vs: seq<bool>): bool
  {
    if |vs| == 0 then prev else vs[|vs| - 1]
  }

  /** A notification repeating the cache makes no call and changes nothing;
      two identical notifications make at most one call in total. */
  lemma NotifyIdempotent(cached: bool, state: bool)
    ensures Notify(cached, cached) == Tracked(cached, [])
    ensures var first := Notify(cached, state);
            var second := Notify(first.active, state);
            second == Tracked(state, []) && |first.trace + second.trace| <= 1
  {
  }

  /** Forwarded values never repeat: the first differs from the starting
      cache and each differs from the one before it. */
  lemma {:induction false} ForwardedAlternates(prev: bool, vs: seq<bool>)
    ensures var f := Forwarded(prev, vs);
            (|f| > 0 ==> f[0] != prev) &&
            (forall i :: 0 < i < |f| ==> f[i] != f[i - 1])
    ensures var f := Forwarded(prev, vs);
            |f| > 0 ==> f[|f| - 1] == Final(prev, vs)
    ensures |Forwarded(prev, vs)| == 0 ==> Final(prev, vs) == prev
    decreases |vs|
  {
    if |vs| > 0 {
      var h := if vs[0] != prev then [vs[0]] else [];
      var t := Forwarded(vs[0], vs[1..]);
      ForwardedAlternates(vs[0], vs[1..]);
      assert Forwarded(prev, vs) == h + t;
      if |vs| > 1 {
        assert Final(vs[0], vs[1..]) == Final(prev, vs);
      }
    }
  }

  /** Duplicating any notification in a run changes neither the calls made
      nor the final cache. */
  lemma {:induction false} DuplicateIgnored(prev: bool, xs: seq<bool>, v: bool, ys: seq<bool>)
    ensures Forwarded(prev, xs + [v, v] + ys) == Forwarded(prev, xs + [v] + ys)
    ensures Final(prev, xs + [v, v] + ys) == Final(prev, xs + [v] + ys)
    decreases |xs|
  {
    if |xs| == 0 {
      assert xs + [v, v] + ys == [v] + ([v] + ys);
      assert xs + [v] + ys == [v] + ys;
      assert ([v] + ([v] + ys))[1..] == [v] + ys;
      assert ([v] + ys)[1..] == ys;
      assert Forwarded(v, [v] + ys) == Forwarded(v, ys);
    } else {
      DuplicateIgnored(xs[0], xs[1..], v, ys);
      assert (xs + [v, v] + ys)[1..] == xs[1..] + [v, v] + ys;
      assert (xs + [v] + ys)[1..] == xs[1..] + [v] + ys;
    }
  }
}

=== FILE: control.dfy ===
/** test_handle_cmtspeech_control: read one control event and react to the
    state transition the speech library classifies it as. The
    classification is an input; the handler only chooses a diagnostic.
 */
module Control {
  import opened Types

  /** The transition codes of the speech library the handler names, plus
      `Unlisted` for any other code (the switch's default). */
  datatype Transition =
    | TrInvalid
    | TrConnected | TrDisconnected | TrDlStart | TrDlulStop | TrParamUpdate
    | TrTimingUpdate6 | TrTimingUpdate7
    | TrReset | TrUlStop | TrUlStart
    | Unlisted

  /** Reference table of the intended reaction to each code. */
  datatype Reaction = ReportError | Warn | Ignore | AssertFails

  function ReactionOf(tr: Transition): Reaction
  {
    match tr
    case TrInvalid => ReportError
    case TrTimingUpdate6 | TrTimingUpdate7 => Warn
    case Unlisted => AssertFails
    case _ => Ignore
  }

  /** The context afterwards, the handler's return value, the calls made,
      and whether assert(0) fired. */
  datatype ControlResult = ControlResult(ctx: Ctx, ret: int, trace: seq<Call>, aborted: bool)

  /** The switch, including the fall-through from the timing-update warning
      into the administrative no-op group. */
  function HandleControl(c: Ctx, tr: Transition): (r: ControlResult)
    ensures r.ctx == c && r.ret == 0
    ensures |r.trace| >= 1 && r.trace[0] == ReadEvent
    ensures r.aborted <==> ReactionOf(tr) == AssertFails
    ensures Diag(InvalidTransition) in r.trace <==> ReactionOf(tr) == ReportError
    ensures Diag(TimingUpdateIgnored) in r.trace <==> ReactionOf(tr) == Warn
    ensures ReactionOf(tr) == Ignore ==> r.trace == [ReadEvent] && !r.aborted
    ensures ReactionOf(tr) == AssertFails ==> r.trace == [ReadEvent]
    ensures |r.trace| <= 2
  {
    var read := [ReadEvent];
    match tr
    case TrInvalid => ControlResult(c, 0, read + [Diag(InvalidTransition)], false)
    case TrConnected | TrDisconnected | TrDlStart | TrDlulStop | TrParamUpdate =>
      ControlResult(c, 0, read, false)
    case TrTimingUpdate6 | TrTimingUpdate7 =>
      // the warning falls through into the no-op group below it
      ControlResult(c, 0, read + [Diag(TimingUpdateIgnored)], false)
    case TrReset | TrUlStop | TrUlStart => ControlResult(c, 0, read, false)
    case Unlisted => ControlResult(c, 0, read, true)
  }

  /** No control event, however classified, issues a speech-buffer,
      call-status or bus call. */
  lemma ControlMakesNoOtherCalls(c: Ctx, tr: Transition, x: Call)
    requires x in HandleControl(c, tr).trace
    ensures x == ReadEvent || x.Diag?
  {
  }
}

=== FILE: loopback.dfy ===
/** test_handle_cmtspeech_data: on downlink data, acquire the downlink
    buffer and, while the channel is in full duplex, loop its payload back
    into an uplink buffer. Buffer acquisition results and the protocol
    state come from the speech library and are inputs here.
 */
module Loopback {
  import opened Types

  /** The library's protocol states, as far as this handler can tell them
      apart: only full duplex (CMTSPEECH_STATE_ACTIVE_DLUL) is singled out. */
  datatype ProtocolState = ActiveDlUl | NotFullDuplex

  /** A borrowed frame buffer; its payload size `pcount` is |payload|. */
  datatype Buffer = Buffer(payload: seq<byte>)

  /** What the speech library answers during one data dispatch:
      the downlink acquire (None on failure), the protocol state, and the
      uplink acquire (consulted only if it is attempted). */
  datatype DataOracle = DataOracle(dl: Option<Buffer>, state: ProtocolState, ul: Option<Buffer>)

  /** The calls made, and the uplink payload handed back on release. */
  datatype DataResult = DataResult(trace: seq<Call>, uplink: Option<seq<byte>>)

  /** The uplink is attempted only on a held downlink in full duplex. */
  predicate UplinkAttempted(o: DataOracle)
  {
    o.dl.Some? && o.state == ActiveDlUl
  }

  predicate UplinkHeld(o: DataOracle)
  {
    UplinkAttempted(o) && o.ul.Some?
  }

  /** The copy happens iff both buffers are held and the uplink payload
      has room for the whole downlink payload. */
  predicate CopyAllowed(o: DataOracle)
  {
    UplinkHeld(o) && |o.ul.value.payload| >= |o.dl.value.payload|
  }

  /** memcpy(ul->payload, dl->payload, dl->pcount): the first |dl| bytes of
      the uplink payload are overwritten, the rest kept. */
  function CopyInto(dl: seq<byte>, ul: seq<byte>): (r: seq<byte>)
    requires |dl| <= |ul|
    ensures |r| == |ul|
    ensures r[..|dl|] == dl && r[|dl|..] == ul[|dl|..]
  {
    dl + ul[|dl|..]
  }

  /** test_handle_cmtspeech_data: the downlink is acquired first; an
      uplink comes back exactly when one was held, carrying the looped
      downlink payload over its tail when it had room, and untouched
      otherwise. */
  function HandleData(o: DataOracle): (r: DataResult)
    ensures |r.trace| > 0 && r.trace[0] == DlAcquire
    ensures r.uplink.Some? <==> UplinkHeld(o)
    ensures UplinkHeld(o) ==> |r.uplink.value| == |o.ul.value.payload|
    ensures CopyAllowed(o) ==>
              r.uplink.value[..|o.dl.value.payload|] == o.dl.value.payload &&
              r.uplink.value[|o.dl.value.payload|..] == o.ul.value.payload[|o.dl.value.payload|..]
    ensures UplinkHeld(o) && !CopyAllowed(o) ==> r.uplink.value == o.ul.value.payload
  {
    match o.dl
    case None => DataResult([DlAcquire], None)
    case Some(dl) =>
      if o.state != ActiveDlUl then DataResult([DlAcquire, DlRelease], None)
      else match o.ul
        case None => DataResult([DlAcquire, UlAcquire, DlRelease], None)
        case Some(ul) =>
          if |ul.payload| >= |dl.payload| then
            DataResult([DlAcquire, UlAcquire, Copy(|dl.payload|), UlRelease, DlRelease],
                       Some(CopyInto(dl.payload, ul.payload)))
          else
            DataResult([DlAcquire, UlAcquire, UlRelease, DlRelease], Some(ul.payload))
  }

  /** Acquire/release pairing: a failed downlink acquire makes no other
      call; otherwise every successful acquire is released exactly once,
      and the uplink is attempted only on a held downlink in full duplex. */
  lemma LoopbackPairing(o: DataOracle)
    ensures var t := HandleData(o).trace;
            (o.dl.None? ==> t == [DlAcquire]) &&
            Count(t, DlAcquire) == 1 &&
            Count(t, DlRelease) == (if o.dl.Some? then 1 else 0) &&
            Count(t, UlAcquire) == (if UplinkAttempted(o) then 1 else 0) &&
            Count(t, UlRelease) == (if UplinkHeld(o) then 1 else 0)
  {
  }

  /** Ordering: the downlink is acquired first and released last, and the
      uplink is released just before it. */
  lemma LoopbackOrdering(o: DataOracle)
    ensures var t := HandleData(o).trace;
            |t| > 0 && t[0] == DlAcquire &&
            (o.dl.Some? ==> t[|t| - 1] == DlRelease) &&
            (UplinkHeld(o) ==> |t| >= 2 && t[|t| - 2] == UlRelease)
  {
  }

  /** Copy bound: either the whole downlink payload is copied into an
      uplink with room for it, or nothing is; the uplink handed back keeps
      its size, its tail, and on a refused copy its whole payload. */
  lemma LoopbackCopy(o: DataOracle)
    ensures var r := HandleData(o);
            (CopyAllowed(o) ==> Copy(|o.dl.value.payload|) in r.trace) &&
            (!CopyAllowed(o) ==> forall n :: Copy(n) !in r.trace) &&
            (r.uplink.Some? <==> UplinkHeld(o)) &&
            (UplinkHeld(o) ==> |r.uplink.value| == |o.ul.value.payload|) &&
            (CopyAllowed(o) ==> r.uplink.value[..|o.dl.value.payload|] == o.dl.value.payload) &&
            (CopyAllowed(o) ==> r.uplink.value[|o.dl.value.payload|..] == o.ul.value.payload[|o.dl.value.payload|..]) &&
            (UplinkHeld(o) && !CopyAllowed(o) ==> r.uplink.value == o.ul.value.payload)
  {
  }

  /** No copy ever writes past the uplink payload: every Copy(n) in the
      trace has n no larger than the uplink size. */
  lemma CopyWithinUplink(o: DataOracle, n: nat)
    requires Copy(n) in HandleData(o).trace
    ensures UplinkHeld(o) && n == |o.dl.value.payload| <= |o.ul.value.payload|
  {
  }

  /** Closing the gate stops loopback: outside full duplex no uplink call
      is made and nothing is copied, whatever the buffers hold. */
  lemma GateClosedNoLoopback(o: DataOracle)
    requires o.state == NotFullDuplex
    ensures UlAcquire !in HandleData(o).trace && UlRelease !in HandleData(o).trace
    ensures forall n :: Copy(n) !in HandleData(o).trace
    ensures HandleData(o).uplink.None?
  {
  }

  /** A frame of any size outside full duplex, whatever uplink the library
      would offer: the downlink is only acquired and released. */
  lemma HalfDuplexFrameNotLooped(d: seq<byte>, ul: Option<Buffer>)
    ensures HandleData(DataOracle(Some(Buffer(d)), NotFullDuplex, ul)) == DataResult([DlAcquire, DlRelease], None)
  {
  }

  /** A 160-byte frame into a 320-byte uplink in full duplex: exactly 160
      bytes are copied and the uplink's tail is kept. */
  lemma FullDuplexFrameLooped(d: seq<byte>, u: seq<byte>)
    requires |d| == 160 && |u| == 320
    ensures var r := HandleData(DataOracle(Some(Buffer(d)), ActiveDlUl, Some(Buffer(u))));
            Copy(160) in r.trace && r.uplink == Some(d + u[160..])
  {
  }

  /** A frame larger than the uplink is not truncated to fit: it is dropped. */
  lemma OversizedFrameDropped(d: seq<byte>, u: seq<byte>)
    requires |d| > |u|
    ensures HandleData(DataOracle(Some(Buffer(d)), ActiveDlUl, Some(Buffer(u)))) ==
              DataResult([DlAcquire, UlAcquire, UlRelease, DlRelease], Some(u))
  {
  }
}

=== FILE: mainloop.dfy ===
/** test_mainloop: poll the speech channel and, while a bus watch supplies a
    descriptor, the bus connection; then handle channel data, channel
    control and bus messages, in that order. poll() and the libraries'
    answers are inputs to each step.
 */
module MainLoop {
  import opened Types
  import opened Watch
  import opened Bus
  import opened Loopback
  import opened Control

  /** What the speech library reports once the channel descriptor is readable. */
  datatype ChannelInput = ChannelInput(
    pending: int,          // cmtspeech_check_pending's result
    dataReady: bool,       // CMTSPEECH_EVENT_DL_DATA flag
    controlReady: bool,    // CMTSPEECH_EVENT_CONTROL flag
    data: DataOracle,
    transition: Transition)

  /** What the bus library does once the bus descriptor is readable:
      whether dispatch is due, the watch callbacks raised inside
      dbus_connection_dispatch (only when it is called), the callbacks
      raised afterwards (inside dbus_watch_handle and the message calls),
      and the messages then queued. Nothing of the watch state is read
      between dbus_watch_handle and the next poll set, so the later
      callbacks act as one batch. */
  datatype BusInput = BusInput(
    dataRemains: bool,
    dispatchCallbacks: seq<WatchEvent>,
    laterCallbacks: seq<WatchEvent>,
    messages: seq<Msg>)

  datatype StepInput = StepInput(
    pollResult: int,
    channelReady: bool,    // fds[cmt].revents != 0
    busReady: bool,        // fds[dbus].revents != 0
    channel: ChannelInput,
    bus: BusInput)

  /** Whether the loop goes on, returns with a code, or the process aborts
      on the assert in the control handler. */
  datatype Exit = Running | Returned(code: int) | Aborted

  datatype StepResult = StepResult(ctx: Ctx, trace: seq<Call>, exit: Exit)

  datatype Phase = Phase(trace: seq<Call>, aborted: bool)

  predicate IsDataCall(x: Call)
  {
    x == DlAcquire || x == UlAcquire || x.Copy? || x == UlRelease || x == DlRelease
  }

  predicate IsControlCall(x: Call)
  {
    x == ReadEvent || x == Diag(InvalidTransition) || x == Diag(TimingUpdateIgnored)
  }

  predicate IsChannelCall(x: Call)
  {
    x == CheckPending || IsDataCall(x) || IsControlCall(x)
  }

  predicate IsBusCall(x: Call)
  {
    x == DispatchBus || x.WatchHandle? || IsMessageCall(x)
  }

  predicate AllChannel(t: seq<Call>)
  {
    forall i :: 0 <= i < |t| ==> IsChannelCall(t[i])
  }

  predicate AllBus(t: seq<Call>)
  {
    forall i :: 0 <= i < |t| ==> IsBusCall(t[i])
  }

  predicate NoBus(t: seq<Call>)
  {
    forall i :: 0 <= i < |t| ==> !IsBusCall(t[i])
  }

  predicate NoData(t: seq<Call>)
  {
    forall i :: 0 <= i < |t| ==> !IsDataCall(t[i])
  }

  predicate NoControl(t: seq<Call>)
  {
    forall i :: 0 <= i < |t| ==> !IsControlCall(t[i])
  }

  /** No bus call precedes a channel call. */
  predicate ChannelBeforeBus(t: seq<Call>)
  {
    forall i, j :: 0 <= i < j < |t| ==> !(IsBusCall(t[i]) && IsChannelCall(t[j]))
  }

  /** No control call precedes a data call. */
  predicate DataBeforeControl(t: seq<Call>)
  {
    forall i, j :: 0 <= i < j < |t| ==> !(IsControlCall(t[i]) && IsDataCall(t[j]))
  }

  lemma ChannelIsNotBus(t: seq<Call>)
    requires AllChannel(t)
    ensures NoBus(t)
  {
  }

  lemma BusIsNeither(t: seq<Call>)
    requires AllBus(t)
    ensures NoData(t) && NoControl(t) && ChannelBeforeBus(t) && DataBeforeControl(t)
  {
  }

  lemma MessageCallsAreBus(t: seq<Call>)
    requires AllMessageCalls(t)
    ensures AllBus(t) && WatchHandlesTracked(t)
  {
  }

  /** Every dbus_watch_handle call names a watch, never NULL. */
  predicate WatchHandlesTracked(t: seq<Call>)
  {
    forall i :: 0 <= i < |t| && t[i].WatchHandle? ==> t[i].w.Some?
  }

  lemma WatchHandlesConcat(a: seq<Call>, b: seq<Call>)
    ensures WatchHandlesTracked(a + b) <==> WatchHandlesTracked(a) && WatchHandlesTracked(b)
  {
    assert forall i :: |a| <= i < |a + b| ==> (a + b)[i] == b[i - |a|];
    if WatchHandlesTracked(a + b) {
      forall i | 0 <= i < |a| && a[i].WatchHandle?
        ensures a[i].w.Some?
      {
        assert (a + b)[i] == a[i];
      }
      forall i | 0 <= i < |b| && b[i].WatchHandle?
        ensures b[i].w.Some?
      {
        assert (a + b)[|a| + i] == b[i];
      }
    }
  }

  lemma ConcatKinds(a: seq<Call>, b: seq<Call>)
    ensures AllChannel(a) && AllChannel(b) ==> AllChannel(a + b)
    ensures AllBus(a) && AllBus(b) ==> AllBus(a + b)
    ensures NoBus(a) && NoBus(b) ==> NoBus(a + b)
    ensures NoData(a) && NoData(b) ==> NoData(a + b)
    ensures NoControl(a) && NoControl(b) ==> NoControl(a + b)
  {
    assert forall i :: |a| <= i < |a + b| ==> (a + b)[i] == b[i - |a|];
  }

  lemma ChannelBeforeBusConcat(a: seq<Call>, b: seq<Call>)
    requires ChannelBeforeBus(a) && ChannelBeforeBus(b)
    requires NoBus(a) || AllBus(b)
    ensures ChannelBeforeBus(a + b)
  {
    assert forall i :: |a| <= i < |a + b| ==> (a + b)[i] == b[i - |a|];
  }

  lemma DataBeforeControlConcat(a: seq<Call>, b: seq<Call>)
    requires DataBeforeControl(a) && DataBeforeControl(b)
    requires NoControl(a) || NoData(b)
    ensures DataBeforeControl(a + b)
  {
    assert forall i :: |a| <= i < |a + b| ==> (a + b)[i] == b[i - |a|];
  }

  lemma DataTraceKinds(o: DataOracle)
    ensures var t := HandleData(o).trace;
            AllChannel(t) && NoControl(t) && DataBeforeControl(t)
            && DlAcquire in t && ReadEvent !in t
  {
    var t := HandleData(o).trace;
    assert t[0] == DlAcquire;
    assert forall i :: 0 <= i < |t| ==> IsDataCall(t[i]) by {
      DataTraceIsData(o);
    }
  }

  /** The data handler makes only buffer and copy calls. */
  lemma DataTraceIsData(o: DataOracle)
    ensures forall i :: 0 <= i < |HandleData(o).trace| ==> IsDataCall(HandleData(o).trace[i])
  {
    match o.dl
    case None =>
    case Some(dl) =>
      if o.state == ActiveDlUl && o.ul.Some? {
        var t := HandleData(o).trace;
        if |o.ul.value.payload| >= |dl.payload| {
          assert t == [DlAcquire, UlAcquire, Copy(|dl.payload|), UlRelease, DlRelease];
        } else {
          assert t == [DlAcquire, UlAcquire, UlRelease, DlRelease];
        }
      }
  }

  lemma ControlTraceKinds(c: Ctx, tr: Transition)
    ensures var t := HandleControl(c, tr).trace;
            AllChannel(t) && NoData(t) && DataBeforeControl(t)
            && ReadEvent in t && DlAcquire !in t
            && (HandleControl(c, tr).aborted <==> tr == Unlisted)
  {
    var t := HandleControl(c, tr).trace;
    assert t[0] == ReadEvent;
    assert |t| <= 2;
    assert forall i :: 0 <= i < |t| ==> IsControlCall(t[i]);
  }

  /** Channel handling once its descriptor is readable: check pending
      events, then data before control. */
  function ChannelPhase(c: Ctx, ch: ChannelInput): (r: Phase)
    ensures |r.trace| > 0 && r.trace[0] == CheckPending
    ensures r.aborted <==> ch.pending > 0 && ch.controlReady && ch.transition == Unlisted
  {
    var go := ch.pending > 0;
    var d := if go && ch.dataReady then HandleData(ch.data).trace else [];
    if go && ch.controlReady then
      var k := HandleControl(c, ch.transition);
      ControlTraceKinds(c, ch.transition);
      Phase([CheckPending] + d + k.trace, k.aborted)
    else
      Phase([CheckPending] + d, false)
  }

  /** Channel calls never report a call status change. */
  lemma {:induction false} ChannelMakesNoStatusCalls(t: seq<Call>)
    requires AllChannel(t)
    ensures StatusCalls(t) == []
  {
    if |t| > 0 {
      assert IsChannelCall(t[0]);
      forall i | 0 <= i < |t[1..]|
        ensures IsChannelCall(t[1..][i])
      {
        assert t[1..][i] == t[i + 1];
      }
      ChannelMakesNoStatusCalls(t[1..]);
    }
  }

  /** Channel handling makes only channel calls, data before control. */
  lemma ChannelPhaseKinds(c: Ctx, ch: ChannelInput)
    ensures var t := ChannelPhase(c, ch).trace;
            AllChannel(t) && NoBus(t) && DataBeforeControl(t) && ChannelBeforeBus(t)
  {
    var go := ch.pending > 0;
    var d := if go && ch.dataReady then HandleData(ch.data).trace else [];
    var a := [CheckPending] + d;
    DataTraceKinds(ch.data);
    ConcatKinds([CheckPending], d);
    DataBeforeControlConcat([CheckPending], d);
    if go && ch.controlReady {
      var k := HandleControl(c, ch.transition);
      ControlTraceKinds(c, ch.transition);
      ConcatKinds(a, k.trace);
      DataBeforeControlConcat(a, k.trace);
      ChannelIsNotBus(a + k.trace);
    } else {
      ChannelIsNotBus(a);
    }
  }

  /** Data is handled iff the library reports pending downlink data, and
      control iff it reports a pending control event. */
  lemma ChannelPhaseDispatch(c: Ctx, ch: ChannelInput)
    ensures var t := ChannelPhase(c, ch).trace;
            (DlAcquire in t <==> ch.pending > 0 && ch.dataReady) &&
            (ReadEvent in t <==> ch.pending > 0 && ch.controlReady)
  {
    var go := ch.pending > 0;
    var d := if go && ch.dataReady then HandleData(ch.data).trace else [];
    DataTraceKinds(ch.data);
    if go && ch.controlReady {
      ControlTraceKinds(c, ch.transition);
    }
  }

  /** The context dbus_watch_handle sees: the one the dispatch callbacks
      leave, or the one bus handling began with when no dispatch is due. */
  function Dispatched(c: Ctx, b: BusInput): Ctx
  {
    if b.dataRemains then ApplyAll(c, b.dispatchCallbacks) else c
  }

  /** No callback raised during dispatch removes a watch. */
  predicate DispatchKeepsWatch(b: BusInput)
  {
    forall i :: 0 <= i < |b.dispatchCallbacks| ==> !b.dispatchCallbacks[i].Removed?
  }

  lemma DispatchedInv(c: Ctx, b: BusInput)
    requires WatchInv(c)
    ensures WatchInv(Dispatched(c, b)) && Dispatched(c, b).callActive == c.callActive
  {
    ApplyAllPreservesInv(c, b.dispatchCallbacks);
  }

  /** A dispatch without remove callbacks leaves a watch tracked. */
  lemma DispatchKeepsTrackedWatch(c: Ctx, b: BusInput)
    ensures c.watch.Some? && DispatchKeepsWatch(b) ==> Dispatched(c, b).watch.Some?
  {
    if c.watch.Some? && DispatchKeepsWatch(b) {
      NoRemoveKeepsWatch(c, b.dispatchCallbacks);
    }
  }

  /** The calls made before the message queue is drained: dispatch if
      the bus still holds data, then handle the watch tracked after it. */
  function BusPrefix(c: Ctx, b: BusInput): seq<Call>
  {
    (if b.dataRemains then [DispatchBus] else []) + [WatchHandle(Dispatched(c, b).watch)]
  }

  /** Bus handling once its descriptor is readable: dispatch if due,
      handle the tracked watch, then pop and handle every queued message.
      The watch callbacks raised meanwhile leave the invariant intact. */
  function BusPhase(c: Ctx, b: BusInput): (r: StepResult)
    requires WatchInv(c)
    ensures WatchInv(r.ctx)
    ensures r.ctx.watch == ApplyAll(Dispatched(c, b), b.laterCallbacks).watch
    ensures r.ctx.fd == ApplyAll(Dispatched(c, b), b.laterCallbacks).fd
    ensures r.ctx.callActive == CallStatus.Final(c.callActive, Notified(b.messages))
    ensures r.exit == Running
  {
    var c0 := Dispatched(c, b);
    DispatchedInv(c, b);
    var c1 := ApplyAll(c0, b.laterCallbacks);
    ApplyAllPreservesInv(c0, b.laterCallbacks);
    var d := Drain(c1.callActive, b.messages);
    StepResult(c1.(callActive := d.active), BusPrefix(c, b) + d.trace, Running)
  }

  /** The prefix handles the watch last and makes no call-status call. */
  lemma BusPrefixCalls(c: Ctx, b: BusInput)
    ensures var t := BusPrefix(c, b);
            |t| > 0 && t[|t| - 1] == WatchHandle(Dispatched(c, b).watch) &&
            StatusCalls(t) == [] && AllBus(t) &&
            (WatchHandlesTracked(t) <==> Dispatched(c, b).watch.Some?)
  {
    var t := BusPrefix(c, b);
    StatusCallsAppend(if b.dataRemains then [DispatchBus] else [], [WatchHandle(Dispatched(c, b).watch)]);
    assert t[|t| - 1] == WatchHandle(Dispatched(c, b).watch);
  }

  /** The call status forwarded by the bus phase is exactly the genuine
      changes among the notifications. */
  lemma BusPhaseStatus(c: Ctx, b: BusInput)
    requires WatchInv(c)
    ensures StatusCalls(BusPhase(c, b).trace) == CallStatus.Forwarded(c.callActive, Notified(b.messages))
  {
    var t := BusPrefix(c, b);
    DispatchedInv(c, b);
    ApplyAllPreservesInv(Dispatched(c, b), b.laterCallbacks);
    var d := Drain(ApplyAll(Dispatched(c, b), b.laterCallbacks).callActive, b.messages);
    assert BusPhase(c, b).trace == t + d.trace;
    BusPrefixCalls(c, b);
    StatusCallsAppend(t, d.trace);
  }

  /** Every call of the bus phase is a bus call, and dbus_watch_handle gets
      the watch tracked after dispatch: NULL exactly when the dispatch
      callbacks left none. */
  lemma BusPhaseKinds(c: Ctx, b: BusInput)
    requires WatchInv(c)
    ensures var r := BusPhase(c, b);
            WatchHandle(Dispatched(c, b).watch) in r.trace && AllBus(r.trace) &&
            (WatchHandlesTracked(r.trace) <==> Dispatched(c, b).watch.Some?)
  {
    var t := BusPrefix(c, b);
    var a := ApplyAll(Dispatched(c, b), b.laterCallbacks).callActive;
    var d := Drain(a, b.messages);
    assert BusPhase(c, b).trace == t + d.trace;
    BusPrefixCalls(c, b);
    DrainShape(a, b.messages);
    MessageCallsAreBus(d.trace);
    WatchHandlesConcat(t, d.trace);
    ConcatKinds(t, d.trace);
    assert (t + d.trace)[|t| - 1] == WatchHandle(Dispatched(c, b).watch);
  }

  /** The calls of the bus phase together. */
  lemma BusPhaseCalls(c: Ctx, b: BusInput)
    requires WatchInv(c)
    ensures var r := BusPhase(c, b);
            StatusCalls(r.trace) == CallStatus.Forwarded(c.callActive, Notified(b.messages)) &&
            WatchHandle(Dispatched(c, b).watch) in r.trace &&
            AllBus(r.trace) &&
            (WatchHandlesTracked(r.trace) <==> Dispatched(c, b).watch.Some?)
  {
    BusPhaseStatus(c, b);
    BusPhaseKinds(c, b);
  }

  /** A remove callback raised during dispatch for the tracked watch makes
      the tool hand NULL to dbus_watch_handle. */
  lemma DispatchRemovalHandsNull()
    ensures WatchHandle(None) in BusPhase(Ctx(Some(1), 3, false), BusInput(true, [Removed(1)], [], [])).trace
  {
    var c := Ctx(Some(1), 3, false);
    var b := BusInput(true, [Removed(1)], [], []);
    BusPhaseKinds(c, b);
    assert Dispatched(c, b) == Ctx(None, -1, false);
  }

  /** The channel part of one wake: handled only if its descriptor is ready. */
  function ChannelOf(c: Ctx, s: StepInput): Phase
  {
    if s.channelReady then ChannelPhase(c, s.channel) else Phase([], false)
  }

  /** The bus is handled in a wake iff it was polled and is ready and the
      control handler's assert did not abort the process. */
  predicate BusHandled(c: Ctx, s: StepInput)
  {
    !ChannelOf(c, s).aborted && PollCount(c) > 1 && s.busReady
  }

  /** The loop body after poll() reported ready descriptors: the channel
      if its descriptor is ready, then the bus if it was polled and is
      ready, unless the control handler's assert aborted the process.
      dbus_watch_handle gets NULL only when the bus is handled and the
      dispatch callbacks removed the tracked watch. */
  function Wake(c: Ctx, s: StepInput): (r: StepResult)
    requires WatchInv(c)
    ensures WatchInv(r.ctx)
    ensures |r.trace| > 0 && r.trace[0] == Poll(PollCount(c))
    ensures !r.exit.Returned?
    ensures WatchHandlesTracked(r.trace) <==> (BusHandled(c, s) ==> Dispatched(c, s.bus).watch.Some?)
    ensures DispatchKeepsWatch(s.bus) ==> WatchHandlesTracked(r.trace)
    ensures r.ctx == (if BusHandled(c, s) then BusPhase(c, s.bus).ctx else c)
    ensures StatusCalls(r.trace) ==
              (if BusHandled(c, s) then CallStatus.Forwarded(c.callActive, Notified(s.bus.messages)) else [])
  {
    var poll := [Poll(PollCount(c))];
    var ch := ChannelOf(c, s);
    ChannelPhaseKinds(c, s.channel);
    ChannelMakesNoStatusCalls(ch.trace);
    StatusCallsAppend(poll, ch.trace);
    assert StatusCalls(poll) == [] by { assert poll[1..] == []; }
    assert WatchHandlesTracked(ch.trace);
    WatchHandlesConcat(poll, ch.trace);
    PolledBusHasWatch(c);
    DispatchKeepsTrackedWatch(c, s.bus);
    if ch.aborted then
      StepResult(c, poll + ch.trace, Aborted)
    else if PollCount(c) > 1 && s.busReady then
      var b := BusPhase(c, s.bus);
      BusPhaseCalls(c, s.bus);
      BusPhaseStatus(c, s.bus);
      StatusCallsAppend(poll + ch.trace, b.trace);
      WatchHandlesConcat(poll + ch.trace, b.trace);
      StepResult(b.ctx, poll + ch.trace + b.trace, Running)
    else
      StepResult(c, poll + ch.trace, Running)
  }

  /** Within one wake, data precedes control and the channel precedes
      the bus. */
  lemma WakeOrder(c: Ctx, s: StepInput)
    requires WatchInv(c)
    ensures ChannelBeforeBus(Wake(c, s).trace)
    ensures DataBeforeControl(Wake(c, s).trace)
  {
    var poll := [Poll(PollCount(c))];
    var ch := ChannelOf(c, s);
    ChannelPhaseKinds(c, s.channel);
    ConcatKinds(poll, ch.trace);
    ChannelBeforeBusConcat(poll, ch.trace);
    DataBeforeControlConcat(poll, ch.trace);
    if BusHandled(c, s) {
      var b := BusPhase(c, s.bus);
      BusPhaseCalls(c, s.bus);
      BusIsNeither(b.trace);
      ChannelBeforeBusConcat(poll + ch.trace, b.trace);
      DataBeforeControlConcat(poll + ch.trace, b.trace);
    }
  }

  /** Within one wake, the channel is handled iff its descriptor is ready,
      the bus only when it was polled and is ready, and then on the watch
      tracked after dispatch; the call status changes only through the bus. */
  lemma WakeGates(c: Ctx, s: StepInput)
    requires WatchInv(c)
    ensures var r := Wake(c, s);
            (CheckPending in r.trace <==> s.channelReady) &&
            ((exists i :: 0 <= i < |r.trace| && IsBusCall(r.trace[i])) ==> c.fd >= 0 && s.busReady) &&
            (BusHandled(c, s) ==> WatchHandle(Dispatched(c, s.bus).watch) in r.trace) &&
            (c.fd >= 0 && s.busReady && r.exit == Running ==> BusHandled(c, s)) &&
            (r.ctx.callActive != c.callActive ==> c.fd >= 0 && s.busReady)
  {
    var poll := [Poll(PollCount(c))];
    var ch := ChannelOf(c, s);
    ChannelPhaseKinds(c, s.channel);
    ConcatKinds(poll, ch.trace);
    assert NoBus(poll + ch.trace);
    if BusHandled(c, s) {
      var b := BusPhase(c, s.bus);
      BusPhaseCalls(c, s.bus);
      assert CheckPending !in b.trace by {
        BusIsNeither(b.trace);
      }
    }
  }

  /** One iteration of the loop body after the exit flag was checked:
      poll the channel, and the bus while it has a descriptor; a failed
      poll ends the loop with -1. */
  function Step(c: Ctx, s: StepInput): (r: StepResult)
    requires WatchInv(c)
    ensures WatchInv(r.ctx)
    ensures |r.trace| > 0 && r.trace[0] == Poll(if c.fd >= 0 then 2 else 1)
    ensures s.pollResult < 0 ==> r == StepResult(c, [Poll(PollCount(c))], Returned(-1))
    ensures s.pollResult == 0 ==> r == StepResult(c, [Poll(PollCount(c))], Running)
    ensures r.exit.Returned? ==> s.pollResult < 0
    ensures WatchHandlesTracked(r.trace) <==>
              (s.pollResult > 0 && BusHandled(c, s) ==> Dispatched(c, s.bus).watch.Some?)
    ensures DispatchKeepsWatch(s.bus) ==> WatchHandlesTracked(r.trace)
    ensures r.ctx == (if s.pollResult > 0 && BusHandled(c, s) then BusPhase(c, s.bus).ctx else c)
    ensures StatusCalls(r.trace) ==
              (if s.pollResult > 0 && BusHandled(c, s)
               then CallStatus.Forwarded(c.callActive, Notified(s.bus.messages)) else [])
  {
    assert StatusCalls([Poll(PollCount(c))]) == [];
    if s.pollResult > 0 then Wake(c, s)
    else if s.pollResult < 0 then StepResult(c, [Poll(PollCount(c))], Returned(-1))
    else StepResult(c, [Poll(PollCount(c))], Running)
  }

  /** When the callbacks that arrive during bus handling end by removing
      the watch tracked at that moment, the next iteration polls the speech
      channel alone. */
  lemma RemoveThenSinglePoll(c: Ctx, s: StepInput, next: StepInput)
    requires WatchInv(c)
    requires s.pollResult > 0 && BusHandled(c, s)
    requires |s.bus.laterCallbacks| > 0
    requires var cb := s.bus.laterCallbacks;
             cb[|cb| - 1].Removed? &&
             ApplyAll(Dispatched(c, s.bus), cb[..|cb| - 1]).watch == Some(cb[|cb| - 1].w)
    ensures Step(Step(c, s).ctx, next).trace[0] == Poll(1)
  {
    var cb := s.bus.laterCallbacks;
    var n := |cb| - 1;
    assert cb == cb[..n] + [cb[n]];
    ApplyAllSnoc(Dispatched(c, s.bus), cb[..n], cb[n]);
  }

  /** The fixed order of one iteration: data before control, channel
      before bus. */
  lemma StepOrder(c: Ctx, s: StepInput)
    requires WatchInv(c)
    ensures ChannelBeforeBus(Step(c, s).trace)
    ensures DataBeforeControl(Step(c, s).trace)
  {
    if s.pollResult > 0 {
      WakeOrder(c, s);
    }
  }

  /** What one iteration handles: the channel iff poll() reported it, the
      bus only when it was in the poll set and reported, the call status
      only through the bus. */
  lemma StepGates(c: Ctx, s: StepInput)
    requires WatchInv(c)
    ensures var r := Step(c, s);
            (CheckPending in r.trace <==> s.pollResult > 0 && s.channelReady) &&
            ((exists i :: 0 <= i < |r.trace| && IsBusCall(r.trace[i])) ==>
               s.pollResult > 0 && PollCount(c) == 2 && s.busReady) &&
            (s.pollResult > 0 && PollCount(c) == 2 && s.busReady && r.exit == Running ==>
               WatchHandle(Dispatched(c, s.bus).watch) in r.trace) &&
            (r.ctx.callActive != c.callActive ==> s.pollResult > 0 && PollCount(c) == 2 && s.busReady)
  {
    if s.pollResult > 0 {
      WakeGates(c, s);
    }
  }

  /** One pass of the while loop: the exit request set by the interrupt
      handler, checked before polling, and the step's inputs. */
  datatype Iteration = Iteration(exitRequested: bool, step: StepInput)

  /** No iteration of the run has a watch removed during dispatch. */
  predicate NoDispatchRemoval(its: seq<Iteration>)
  {
    forall i :: 0 <= i < |its| ==> DispatchKeepsWatch(its[i].step.bus)
  }

  /** The loop over a run of iterations; `Running` when the run ends before
      the loop does. */
  function RunLoop(c: Ctx, its: seq<Iteration>): (r: StepResult)
    requires WatchInv(c)
    ensures WatchInv(r.ctx)
    ensures |its| > 0 && its[0].exitRequested ==> r == StepResult(c, [], Returned(0))
    ensures r.exit.Returned? ==> r.exit.code == 0 || r.exit.code == -1
    ensures r.exit == Returned(0) ==> exists i :: 0 <= i < |its| && its[i].exitRequested
    ensures r.exit == Returned(-1) ==> exists i :: 0 <= i < |its| && its[i].step.pollResult < 0
    ensures NoDispatchRemoval(its) ==> WatchHandlesTracked(r.trace)
    ensures |its| > 0 && !its[0].exitRequested ==>
              var s := Step(c, its[0].step);
              s.trace <= r.trace && (s.exit != Running ==> r == s)
    decreases |its|
  {
    if |its| == 0 then StepResult(c, [], Running)
    else if its[0].exitRequested then StepResult(c, [], Returned(0))
    else
      var s := Step(c, its[0].step);
      if s.exit != Running then s
      else
        var rest := RunLoop(s.ctx, its[1..]);
        assert rest.exit == Returned(0) ==> its[1..][0].exitRequested || exists i :: 0 <= i < |its[1..]| && its[1..][i].exitRequested;
        assert NoDispatchRemoval(its) ==> DispatchKeepsWatch(its[0].step.bus) && NoDispatchRemoval(its[1..]);
        WatchHandlesConcat(s.trace, rest.trace);
        StepResult(rest.ctx, s.trace + rest.trace, rest.exit)
  }

  /** From the initial context, every run keeps the invariant, and
      dbus_watch_handle never gets NULL unless a watch is removed during
      dispatch. */
  lemma InitialRunKeepsInvariant(its: seq<Iteration>)
    ensures WatchInv(RunLoop(Initial, its).ctx)
    ensures NoDispatchRemoval(its) ==> WatchHandlesTracked(RunLoop(Initial, its).trace)
  {
  }
}

=== FILE: types.dfy ===
/** Shared vocabulary of the loopback tool: the session context, byte
    payloads, and the ordered trace of calls the tool makes into the speech
    library (libcmtspeechdata), the bus library (libdbus) and stderr.
 */
module Types {

  newtype byte = x: int | 0 <= x < 256

  datatype Option<T> = None | Some(value: T)

  /** Identity of a bus watch object: the address the watch callbacks receive.
      Only equality between watches matters to the tool. */
  type WatchId = nat

  /** The mutable part of the tool's context record: the tracked bus watch,
      the descriptor polled for it (-1 when none), and the cached call-server
      status last reported on the bus. */
  datatype Ctx = Ctx(watch: Option<WatchId>, fd: int, callActive: bool)

  /** The context as `main` and the bus setup leave it before any watch
      callback: no watch, no descriptor, call server inactive. */
  const Initial: Ctx := Ctx(None, -1, false)

  /** Diagnostics written to stderr (or stdout for the warning). */
  datatype Diagnostic =
    | InvalidTransition      // control event with no state transition
    | TimingUpdateIgnored    // modem uplink timing update not acted upon
    | ParseError             // "Active" property with a malformed value
    | UnsupportedProperty    // AudioSettings property other than "Active"

  /** One observable call of the tool, in the order it is made. Calls that
      only query the libraries (protocol state, event classification,
      dispatch status, a watch's descriptor and enabled flag) are not
      listed: their answers are inputs. poll() and cmtspeech_check_pending
      are listed, and their results are inputs too. */
  datatype Call =
    | Poll(count: nat)                  // poll() over the first `count` descriptors
    | CheckPending                      // cmtspeech_check_pending
    | DlAcquire                         // cmtspeech_dl_buffer_acquire
    | UlAcquire                         // cmtspeech_ul_buffer_acquire
    | Copy(bytes: nat)                  // memcpy of downlink payload into uplink
    | UlRelease                         // cmtspeech_ul_buffer_release
    | DlRelease                         // cmtspeech_dl_buffer_release
    | ReadEvent                         // cmtspeech_read_event
    | CallStatusChange(active: bool)    // cmtspeech_state_change_call_status
    | DispatchBus                       // dbus_connection_dispatch
    | WatchHandle(w: Option<WatchId>)   // dbus_watch_handle on the tracked watch
    | PopMessage                        // dbus_connection_pop_message
    | MessageUnref                      // dbus_message_unref
    | Diag(d: Diagnostic)

  /** Number of occurrences of `c` in trace `t`. */
  function Count(t: seq<Call>, c: Call): nat
  {
    multiset(t)[c]
  }

  /** The values handed to cmtspeech_state_change_call_status, in order. */
  function StatusCalls(t: seq<Call>): seq<bool>
  {
    if |t| == 0 then []
    else (if t[0].CallStatusChange? then [t[0].active] else []) + StatusCalls(t[1..])
  }

  lemma {:induction false} StatusCallsAppend(a: seq<Call>, b: seq<Call>)
    ensures StatusCalls(a + b) == StatusCalls(a) + StatusCalls(b)
  {
    if |a| == 0 {
      assert a + b == b;
    } else {
      var h := if a[0].CallStatusChange? then [a[0].active] else [];
      assert (a + b)[0] == a[0];
      assert (a + b)[1..] == a[1..] + b;
      StatusCallsAppend(a[1..], b);
      calc {
        StatusCalls(a + b);
        h + StatusCalls(a[1..] + b);
        h + (StatusCalls(a[1..]) + StatusCalls(b));
        (h + StatusCalls(a[1..])) + StatusCalls(b);
      }
    }
  }
}

=== FILE: watch.dfy ===
/** The three bus watch callbacks (add, remove, toggle) that keep the
    context's tracked watch and polled descriptor up to date.
    The descriptor and enabled flag of a watch are the answers of
    dbus_watch_get_fd and dbus_watch_get_enabled at the time of the call.
 */
module Watch {
  import opened Types

  /** One invocation of a watch callback by the bus library. */
  datatype WatchEvent =
    | Added(w: WatchId, fd: int)
    | Removed(w: WatchId)
    | Toggled(w: WatchId, enabled: bool, fd: int)

  /** No tracked watch means no descriptor to poll: the slot then holds
      the sentinel -1, never a stale descriptor. */
  predicate WatchInv(c: Ctx)
  {
    c.watch.None? ==> c.fd == -1
  }

  /** Number of descriptors the main loop hands to poll(). */
  function PollCount(c: Ctx): nat
  {
    if c.fd >= 0 then 2 else 1
  }

  /** priv_add_cb: the new watch replaces whatever was tracked. */
  function OnAdd(c: Ctx, w: WatchId, fd: int): (r: Ctx)
    ensures r.watch == Some(w) && r.fd == fd
    ensures r.callActive == c.callActive
    ensures WatchInv(r)
  {
    c.(watch := Some(w), fd := fd)
  }

  /** priv_remove_cb: only the tracked watch is forgotten. */
  function OnRemove(c: Ctx, w: WatchId): (r: Ctx)
    ensures c.watch == Some(w) ==> r.watch.None? && r.fd == -1 && PollCount(r) == 1
    ensures c.watch != Some(w) ==> r == c
    ensures r.callActive == c.callActive
    ensures WatchInv(c) ==> WatchInv(r)
  {
    if c.watch == Some(w) then c.(watch := None, fd := -1) else c
  }

  /** priv_toggled_cb: the tracked watch is kept; only its descriptor is
      switched between the watch's own and the sentinel. */
  function OnToggle(c: Ctx, w: WatchId, enabled: bool, fd: int): (r: Ctx)
    ensures r.watch == c.watch && r.callActive == c.callActive
    ensures c.watch == Some(w) && enabled ==> r.fd == fd
    ensures c.watch == Some(w) && !enabled ==> r.fd == -1 && PollCount(r) == 1
    ensures c.watch != Some(w) ==> r == c
    ensures WatchInv(c) ==> WatchInv(r)
  {
    if c.watch == Some(w) then
      (if enabled then c.(fd := fd) else c.(fd := -1))
    else c
  }

  function Apply(c: Ctx, e: WatchEvent): Ctx
  {
    match e
    case Added(w, fd) => OnAdd(c, w, fd)
    case Removed(w) => OnRemove(c, w)
    case Toggled(w, enabled, fd) => OnToggle(c, w, enabled, fd)
  }

  /** The callbacks in `es`, applied in order. */
  function ApplyAll(c: Ctx, es: seq<WatchEvent>): Ctx
    decreases |es|
  {
    if |es| == 0 then c else ApplyAll(Apply(c, es[0]), es[1..])
  }

  /** Any run of callbacks keeps the invariant and leaves the call status alone. */
  lemma {:induction false} ApplyAllPreservesInv(c: Ctx, es: seq<WatchEvent>)
    requires WatchInv(c)
    ensures WatchInv(ApplyAll(c, es))
    ensures ApplyAll(c, es).callActive == c.callActive
    decreases |es|
  {
    if |es| > 0 {
      ApplyAllPreservesInv(Apply(c, es[0]), es[1..]);
    }
  }

  /** From the initial context, every sequence of callbacks yields a context
      satisfying the invariant. */
  lemma InitialInvariant(es: seq<WatchEvent>)
    ensures WatchInv(ApplyAll(Initial, es))
    ensures ApplyAll(Initial, es).callActive == false
  {
    ApplyAllPreservesInv(Initial, es);
  }

  /** Under the invariant the bus descriptor is polled only while a watch
      is tracked, so bus handling always begins with a tracked watch. */
  lemma PolledBusHasWatch(c: Ctx)
    requires WatchInv(c)
    ensures PollCount(c) == 2 ==> c.watch.Some?
    ensures PollCount(c) == 2 <==> c.fd >= 0
  {
  }

  /** Once the tracked watch is removed, the poll set is the speech channel
      alone until an add callback arrives: removes and toggles of any watch
      cannot bring a bus descriptor back. */
  lemma {:induction false} RemovedWatchStaysRemoved(c: Ctx, w: WatchId, es: seq<WatchEvent>)
    requires c.watch == Some(w)
    requires forall i :: 0 <= i < |es| ==> !es[i].Added?
    ensures ApplyAll(OnRemove(c, w), es).watch.None?
    ensures ApplyAll(OnRemove(c, w), es).fd == -1
  {
    var d := OnRemove(c, w);
    NoAddKeepsNoWatch(d, es);
  }

  lemma {:induction false} NoAddKeepsNoWatch(c: Ctx, es: seq<WatchEvent>)
    requires c.watch.None? && c.fd == -1
    requires forall i :: 0 <= i < |es| ==> !es[i].Added?
    ensures ApplyAll(c, es) == c
    decreases |es|
  {
    if |es| > 0 {
      assert !es[0].Added?;
      NoAddKeepsNoWatch(Apply(c, es[0]), es[1..]);
    }
  }

  /** A run of callbacks without a remove keeps some watch tracked: adds
      replace it and toggles keep it. */
  lemma {:induction false} NoRemoveKeepsWatch(c: Ctx, es: seq<WatchEvent>)
    requires c.watch.Some?
    requires forall i :: 0 <= i < |es| ==> !es[i].Removed?
    ensures ApplyAll(c, es).watch.Some?
    decreases |es|
  {
    if |es| > 0 {
      assert !es[0].Removed?;
      NoRemoveKeepsWatch(Apply(c, es[0]), es[1..]);
    }
  }

  /** Applying one more callback after a run is applying it to the run's
      result. */
  lemma {:induction false} ApplyAllSnoc(c: Ctx, es: seq<WatchEvent>, e: WatchEvent)
    ensures ApplyAll(c, es + [e]) == Apply(ApplyAll(c, es), e)
    decreases |es|
  {
    if |es| == 0 {
      assert es + [e] == [e];
      assert [e][1..] == [];
    } else {
      assert (es + [e])[1..] == es[1..] + [e];
      ApplyAllSnoc(Apply(c, es[0]), es[1..], e);
    }
  }
}
